=== FILE: README.md ===
# ImageColorAnalyzer core, modelled in Dafny

The service accepts an uploaded image on `POST /analyze`, obtains a dominant
colour and a six-colour palette from a colour-extraction library, and turns
each RGB triple into a colour description:

- `rgb`: the triple itself;
- `hex`: `#RRGGBB` in upper case;
- `engName` and `chineseName`: the nearest of ten fixed reference colours;
- `engStanderName`: a name from the `color-name` table.

This project models the pure part of `index.js`:

- the reference palette `customColorMap` and the name -> hex object derived from it;
- `formatColorObject`, including the hex serialiser written with JavaScript's
  `<<`, `toString(16)`, `slice(1)` and `toUpperCase`;
- the decision logic of the `/analyze` handler: 403, 400, 500 or 200, in that
  priority, after a request without a multipart form has already failed with 500.

The modules follow that structure:

- `Hex` (`hex.dfy`): the serialiser, step by step in JavaScript terms. It is
  proved equal to an independent reference encoding: `#` and then two
  upper-case, zero-padded digits per channel. A decoder `ParseHex` inverts
  it in both directions.
- `Reference` (`reference.dfy`): the ten-entry table, the `reduce` that builds
  `{ name: hex }`, and the Chinese-label lookup with its `'未知'` fallback.
  It also holds the contract assumed of the external nearest-colour matcher
  (`ValidMatcher`). `EuclidMatcher` is one matcher meeting that contract.
- `StandardName` (`standard_name.dfy`): `Object.keys(colorNameList).find(...) || 'Unknown'`.
  Values are compared with JavaScript `===`.
- `Format` (`format.dfy`): `formatColorObject`.
- `Analyze` (`analyze.dfy`): the handler as a function from configuration,
  extraction library and request to a response.

External pieces are parameters:

- the nearest-colour matcher is a function `string -> Match`;
- the `color-name` table is a sequence of `(key, value)` entries;
- `ColorThief.getColor` / `getPalette` are functions from the buffer to `Option`;
- `process.env.API_KEY` is an `Option<string>`.

Three behaviours of the code are easy to misread:

- A `key` field looks mandatory, but the code compares
  `req.body.key !== process.env.API_KEY`. When `API_KEY` is unset, a request
  with no `key` field passes the check. Keys are `Option<string>`, and
  `Analyze.UnsetKeyAdmitsMissingKey` states this behaviour.
- The standard name is not a nearest match in the `color-name` table. It is
  the first key whose value is `===` to the matched reference hex.
  The query is the matched reference colour's hex, not the pixel's hex.
- The comment at index.js line 58 expects `color-name` to map names to hex
  strings. A string is never `===` to an array. So if the table's values are
  `[r, g, b]` arrays, `engStanderName` is always `Unknown`
  (`StandardName.ArrayValuedTableIsUnknown`, `Format.ArrayTableGivesUnknown`).
  The table's contents are not part of this model, so both cases are kept open.

## Model

| member | source | states |
|---|---|---|
| Hex.ToInt32 | index.js:52 | JavaScript's 32-bit conversion used by `<<` lands in the signed 32-bit range and leaves in-range values unchanged |
| Hex.ShiftLeftNoWrap | index.js:52 | `x << s` equals `x * 2^s` when the product stays below 2^31, so none of the three shifts wraps around for 8-bit channels |
| Hex.ToBase16 | index.js:52 | `toString(16)` of a non-negative number is a non-empty string of lower-case hex digits, with at least two digits from 16 upward |
| Hex.ToUpper | index.js:52 | `toUpperCase` keeps the length and maps each character to its upper-case form |
| Hex.SliceFrom1 | index.js:52 | `slice(1)` drops exactly one character from a non-empty string |
| Hex.ToBase16Leading1 | index.js:52 | rendering 16^k + v with v < 16^k gives `1` followed by v's k zero-padded digits, which is why the `1 << 24` term and `slice(1)` produce the padding |
| Hex.LowerFixedSplit | index.js:52 | the fixed-width digits of a * 16^m + c split into a's digits followed by c's m digits, so each channel owns its own two digits |
| Hex.PackedIsSum | index.js:52 | the packed value `(1<<24)+(r<<16)+(g<<8)+b` equals 16^6 + r*16^4 + g*16^2 + b |
| Hex.RgbToHex | index.js:52 | the hex field is `#` plus six upper-case hex digits (length 7), equal to the reference encoding with each channel as two zero-left-padded digits |
| Hex.ReferenceHex | index.js:52 | the reference encoding is canonical, and characters 1-2, 3-4 and 5-6 are the padded digits of r, g and b |
| Hex.Hex2 | index.js:52 | a channel's two digits are upper-case and have the values v / 16 and v % 16 |
| Hex.ParseHex | index.js:52 | the decoder accepts only `#` plus six hex digits, and accepts every canonical hex string |
| Hex.ParseOfRgbToHex | index.js:51-52 | decoding the hex field returns the triple it was built from |
| Hex.RgbToHexOfParse | index.js:52 | every `#` plus six upper-case digits string is the hex field of the triple it decodes to |
| Hex.RgbToHexInjective | index.js:52 | two triples have the same hex field exactly when they are equal |
| Reference.HexByName | index.js:29-34 | the reduced object's keys are exactly the entries' names, and each name maps to the hex of its last entry |
| Reference.TableDistinct | index.js:15-26 | the table has ten entries with pairwise distinct names, hex strings and colours, and every Chinese label is non-empty and differs from `'未知'` |
| Reference.TableHexIsEncoding | index.js:15-26 | every reference hex string is canonical and is the encoder's output for its colour |
| Reference.NameToHexContents | index.js:29-34 | the object given to the matcher has exactly the ten names, each mapped to its own entry's hex |
| Reference.FindByName | index.js:65 | a name lookup returns an entry carrying that name, or none exactly when no entry has it |
| Reference.ChineseLabel | index.js:65 | a reference name gets its entry's Chinese label, and any other name gets `'未知'` |
| Reference.ChineseLabelKnown | index.js:15-26 | for every name of the derived object the `'未知'` fallback is unreachable |
| Reference.MatchedLabelKnown | index.js:55-65 | under the matcher contract, every well-formed query's match is a reference name with a real Chinese label |
| Reference.SqDist | index.js:55 | squared RGB distance is zero exactly for equal colours |
| Reference.NearestIndex | index.js:55 | the chosen reference colour is at minimal distance, and every earlier entry is strictly farther, so ties go to the first entry |
| Reference.EuclidExactEntry | index.js:55 | with distance-minimising matching, a query equal to an entry's hex returns that entry |
| Reference.EuclidMatcherIsValid | index.js:29-34 | distance-minimising matching over the ten entries satisfies the assumed matcher contract |
| StandardName.FindIndex | index.js:59 | `find` returns the first position whose value is `===` to the query, or none when no value is |
| StandardName.Lookup | index.js:59 | the standard name is the first key whose value is `===` the query, `Unknown` when no key qualifies or the key is empty, and never empty |
| StandardName.LookupIsKey | index.js:59 | a result other than `Unknown` is a key of the table whose value equals the query |
| StandardName.ArrayValuedTableIsUnknown | index.js:58-59 | if every value of the table is an array, the lookup is always `Unknown` |
| Format.FormatColorObject | index.js:50-68 | the record's `rgb` is the input, its `hex` decodes back to the input, `engName` is the matcher's answer for the pixel's own hex and, under the matcher contract, one of the ten names with a real `chineseName`; `engStanderName` is looked up by the `value` the matcher returned for that same query |
| Format.ReferencePixel | index.js:55-65 | a pixel whose hex equals a reference entry's hex is described by that entry's name and Chinese label, and its standard name is looked up by that hex |
| Format.PureRed | index.js:55-65 | (255, 0, 0) is described as `Red` / `純紅` |
| Format.StandardNameFollowsReference | index.js:55-59 | two pixels with the same nearest reference entry get the same standard name |
| Format.ArrayTableGivesUnknown | index.js:57-59 | with an array-valued standard table, every description's standard name is `Unknown` |
| Analyze.ExtractBoth | index.js:97-100 | the combined extraction succeeds exactly when both library calls succeed, and then carries both results; the palette call asks for 6 colours |
| Analyze.FormatAll | index.js:104 | the formatted palette has the input's length and order, element i being the description of colour i |
| Analyze.HandleAnalyze | index.js:79-117 | a request without a multipart form gets 500. For a form: status 403 exactly on a key mismatch; 400 exactly on a matching key with no file; 500 exactly on a matching key, a file and an extraction failure; otherwise 200. A body with results appears exactly on 200, and each error status carries its fixed message: the 500 body is always the generic analysis-error text, with no diagnostics |
| Analyze.NoFormServerError | index.js:80-82 | a request without a multipart form throws at `req.body.key` and is answered 500 inside the `try`, never 403, whatever the key or library |
| Analyze.SuccessContents | index.js:102-111 | on 200 the body's dominant colour is the description of the extracted dominant triple, and its palette is the extracted palette described element-wise, in order |
| Analyze.KeyMismatchForbidden | index.js:82-85 | a key mismatch yields the same 403 response whatever file is present and whatever the extraction library would do |
| Analyze.MissingImageBadRequest | index.js:87-90 | a matching key without a file yields 400 without depending on the extraction library |
| Analyze.UnsetKeyAdmitsMissingKey | index.js:82-83 | with `API_KEY` unset, a request without `key` passes authorisation, and reaches 400 if it has no file |
| Analyze.PaletteBounded | index.js:99 | if the library returns at most the requested count, a successful response holds at most six palette colours |
| Analyze.SuccessNamesReferenceColours | index.js:103-104 | under the matcher contract, every description in a successful response names a reference colour with a real Chinese label |

## Left out

- Express setup, the `/health` route, the 404 fallback and `app.listen` (index.js:10-12, 74-76, 120-128): server plumbing with no decision logic.
- `dotenv` loading (index.js:10): the configured key is the `Config.apiKey` parameter.
- Multer's memory storage and its errors (index.js:38-42): the 10 MiB limit, a file sent under a field other than `image` and a malformed form are rejected inside the `upload.single('image')` middleware and never reach the handler or its 500 body.
- The image decoding and quantisation inside `ColorThief.getColor` / `getPalette` (index.js:97-100): an external library, modelled as two functions that succeed or fail.
- The concurrency of `Promise.all` (index.js:97): modelled as one combined outcome that fails when either call fails.
- `console.error` logging (index.js:114): it has no effect on the response.
- The internals of `nearest-color` (distance metric, tie-breaking, colour parsing): an external library. The model assumes only `Reference.ValidMatcher`.
- Reference.EuclidMatcher: squared-RGB-distance matching with first-wins ties is an assumed stand-in for the library. A query that is not `#` plus six hex digits gets the first entry; the encoder never produces such a query.
- Format.FormatColorObject: the properties about `engName` and `chineseName` hold only under `ValidMatcher`, an assumption about the external matcher rather than something the source guarantees.
- The contents and value format of the `color-name` package: an external table, taken as a parameter.
- Exceptions raised inside `formatColorObject` (for example a matcher that throws): the matcher is a total function here. The modelled 500 paths are a request without a multipart form and an extraction failure.
- Which bodies leave `req.body` unset is decided by Express and multer, which are not part of this model: `Request.NoForm` stands for every such request.
- A `key` field that multer delivers as something other than one string: keys are `Option<string>`.
- Hex.ToUpper: upper-cases only ASCII letters. `toUpperCase`'s full Unicode mapping never matters here, because the string holds only hex digits.
- test-client.js: a command-line client that reads a file and posts it over HTTP. Its key masking (test-client.js:37) is console output only.

=== FILE: analyze.dfy ===
/**
 * The decision logic of the `POST /analyze` handler (index.js lines 79-117):
 * key check, file check, colour extraction, and response assembly.
 *
 * The upload middleware, the colour-extraction library and the process
 * environment are outside the model; they enter as an abstract request, two
 * extraction functions and a configured key.
 */
module Analyze {
  import opened Wrappers
  import opened Hex
  import opened Reference
  import opened StandardName
  import opened Format

  type Byte = x: int | 0 <= x < 256

  /** The uploaded file, buffered in memory. */
  datatype Upload = Upload(buffer: seq<Byte>)

  /**
   * What the handler reads from a request.  A multipart form yields the `key`
   * field and the `image` file; any other body leaves `req.body` unset, so
   * reading `req.body.key` throws.
   */
  datatype Request =
    | Request(key: Option<string>, image: Option<Upload>)
    | NoForm

  /**
   * The colour-extraction library: `getColor(buffer)` and `getPalette(buffer, count)`,
   * each of which either produces colours or fails (None).
   */
  datatype Extractor = Extractor(
    getColor: seq<Byte> -> Option<Rgb>,
    getPalette: (seq<Byte>, nat) -> Option<seq<Rgb>>)

  /** Process-wide, read-only configuration: `API_KEY` and the two lookup tables. */
  datatype Config = Config(
    apiKey: Option<string>,
    nearest: string -> Match,
    standard: seq<Entry>)

  /** The JSON body of a response. */
  datatype Body =
    | ErrorBody(error: string)
    | AnalysisBody(dominant: ColorObject, palette: seq<ColorObject>)

  datatype Response = Response(status: int, body: Body)

  /** Number of palette colours requested from the library. */
  const PaletteCount: nat := 6

  const ForbiddenMessage: string := "權限拒絕 (Permission Denied)"
  const MissingImageMessage: string := "圖片未上傳 (Image not uploaded)"
  const AnalysisErrorMessage: string := "發生錯誤 (An error occurred during analysis)"

  /** Both extraction results of `Promise.all`, or None when either call fails. */
  function ExtractBoth(lib: Extractor, buffer: seq<Byte>): (r: Option<(Rgb, seq<Rgb>)>)
    ensures r.Some? <==> lib.getColor(buffer).Some? && lib.getPalette(buffer, PaletteCount).Some?
    ensures r.Some? ==> r.value.0 == lib.getColor(buffer).value
    ensures r.Some? ==> r.value.1 == lib.getPalette(buffer, PaletteCount).value
  {
    match (lib.getColor(buffer), lib.getPalette(buffer, PaletteCount))
    case (Some(d), Some(p)) => Some((d, p))
    case _ => None
  }

  /** `paletteRgb.map(formatColorObject)`. */
  function FormatAll(cfg: Config, colors: seq<Rgb>): (r: seq<ColorObject>)
    ensures |r| == |colors|
    ensures forall i :: 0 <= i < |colors| ==> r[i] == FormatColorObject(cfg.nearest, cfg.standard, colors[i])
  {
    if |colors| == 0 then []
    else [FormatColorObject(cfg.nearest, cfg.standard, colors[0])] + FormatAll(cfg, colors[1..])
  }

  /** The `/analyze` handler, from the request it receives to the response it sends. */
  function HandleAnalyze(cfg: Config, lib: Extractor, req: Request): (resp: Response)
    ensures resp.status in {200, 400, 403, 500}
    ensures resp.status == 200 <==> resp.body.AnalysisBody?
    ensures resp.status == 403 ==> resp.body == ErrorBody(ForbiddenMessage)
    ensures resp.status == 400 ==> resp.body == ErrorBody(MissingImageMessage)
    ensures resp.status == 500 ==> resp.body == ErrorBody(AnalysisErrorMessage)
    ensures resp.status == 403 <==> req.Request? && req.key != cfg.apiKey
    ensures resp.status == 400 <==> req.Request? && req.key == cfg.apiKey && req.image.None?
    ensures resp.status == 500 <==>
              || req.NoForm?
              || (req.Request? && req.key == cfg.apiKey && req.image.Some?
                  && ExtractBoth(lib, req.image.value.buffer).None?)
  {
    if req.NoForm? then
      Response(500, ErrorBody(AnalysisErrorMessage))
    else if req.key != cfg.apiKey then
      Response(403, ErrorBody(ForbiddenMessage))
    else if req.image.None? then
      Response(400, ErrorBody(MissingImageMessage))
    else
      match ExtractBoth(lib, req.image.value.buffer)
      case None => Response(500, ErrorBody(AnalysisErrorMessage))
      case Some((dominantRgb, paletteRgb)) =>
        Response(200, AnalysisBody(
          FormatColorObject(cfg.nearest, cfg.standard, dominantRgb),
          FormatAll(cfg, paletteRgb)))
  }

  /** A successful response carries the formatted dominant colour and the palette, in order. */
  lemma SuccessContents(cfg: Config, lib: Extractor, req: Request)
    ensures HandleAnalyze(cfg, lib, req).status == 200 ==>
            && req.Request?
            && req.image.Some?
            && lib.getColor(req.image.value.buffer).Some?
            && lib.getPalette(req.image.value.buffer, PaletteCount).Some?
    ensures HandleAnalyze(cfg, lib, req).status == 200 ==>
            var body := HandleAnalyze(cfg, lib, req).body;
            var buffer := req.image.value.buffer;
            var extracted := lib.getPalette(buffer, PaletteCount).value;
            && body.dominant == FormatColorObject(cfg.nearest, cfg.standard, lib.getColor(buffer).value)
            && |body.palette| == |extracted|
            && forall i :: 0 <= i < |extracted| ==>
                 body.palette[i] == FormatColorObject(cfg.nearest, cfg.standard, extracted[i])
  {
  }

  /** A wrong key is refused whether or not a file was uploaded, and whatever the library does. */
  lemma KeyMismatchForbidden(cfg: Config, lib1: Extractor, lib2: Extractor, req: Request, image: Option<Upload>)
    requires req.Request? && req.key != cfg.apiKey
    ensures HandleAnalyze(cfg, lib1, req) == HandleAnalyze(cfg, lib2, req.(image := image))
    ensures HandleAnalyze(cfg, lib1, req) == Response(403, ErrorBody(ForbiddenMessage))
  {
  }

  /** With the right key but no file the answer is 400, and the library is never consulted. */
  lemma MissingImageBadRequest(cfg: Config, lib1: Extractor, lib2: Extractor, key: Option<string>)
    requires key == cfg.apiKey
    ensures HandleAnalyze(cfg, lib1, Request(key, None)) == HandleAnalyze(cfg, lib2, Request(key, None))
    ensures HandleAnalyze(cfg, lib1, Request(key, None)) == Response(400, ErrorBody(MissingImageMessage))
  {
  }

  /**
   * A request without a multipart form fails at `req.body.key` and is answered
   * 500, before the key check, whatever the key or the library.
   */
  lemma NoFormServerError(cfg: Config, lib: Extractor)
    ensures HandleAnalyze(cfg, lib, NoForm) == Response(500, ErrorBody(AnalysisErrorMessage))
    ensures HandleAnalyze(cfg, lib, NoForm).status != 403
  {
  }

  /** An unset `API_KEY` lets a request without a `key` field through the key check. */
  lemma UnsetKeyAdmitsMissingKey(cfg: Config, lib: Extractor, image: Option<Upload>)
    requires cfg.apiKey.None?
    ensures HandleAnalyze(cfg, lib, Request(None, image)).status != 403
    ensures image.None? ==> HandleAnalyze(cfg, lib, Request(None, image)).status == 400
  {
  }

  /** When the library honours the requested count, a success holds at most six palette colours. */
  lemma PaletteBounded(cfg: Config, lib: Extractor, req: Request)
    ensures (forall b :: lib.getPalette(b, PaletteCount).Some? ==> |lib.getPalette(b, PaletteCount).value| <= PaletteCount)
            && HandleAnalyze(cfg, lib, req).status == 200
            ==> |HandleAnalyze(cfg, lib, req).body.palette| <= 6
  {
    SuccessContents(cfg, lib, req);
  }

  /**
   * Under the matcher contract every description in a successful response
   * names a reference colour with its real Chinese label.
   */
  lemma SuccessNamesReferenceColours(cfg: Config, lib: Extractor, req: Request)
    ensures ValidMatcher(cfg.nearest) && HandleAnalyze(cfg, lib, req).status == 200 ==>
            var body := HandleAnalyze(cfg, lib, req).body;
            && body.dominant.engName in NameToHex()
            && body.dominant.chineseName != UnknownChinese
            && forall i :: 0 <= i < |body.palette| ==>
                 body.palette[i].engName in NameToHex() && body.palette[i].chineseName != UnknownChinese
  {
    SuccessContents(cfg, lib, req);
  }
}

=== FILE: format.dfy ===
/**
 * `formatColorObject` (index.js lines 50-68): one RGB triple becomes a colour
 * description carrying the triple, its hex string, the nearest reference
 * colour's English name and Chinese label, and a standard name looked up by
 * the matched reference colour's hex value.
 */
module Format {
  import opened Wrappers
  import opened Hex
  import opened Reference
  import opened StandardName

  /** The colour description returned to the client. */
  datatype ColorObject = ColorObject(
    rgb: Rgb,
    hex: string,
    engName: string,
    chineseName: string,
    engStanderName: string)

  /**
   * Builds the description of `c`.  `nearest` is the matcher built over the
   * reference palette and `standard` is the `color-name` table; both come from
   * external packages and are parameters.
   */
  function FormatColorObject(nearest: string -> Match, standard: seq<Entry>, c: Rgb): (o: ColorObject)
    ensures o.rgb == c
    ensures o.hex == ReferenceHex(c)
    ensures ParseHex(o.hex) == Some(c)
    ensures o.engStanderName != ""
    ensures o.engName == nearest(ReferenceHex(c)).name
    ensures o.engStanderName == Lookup(standard, nearest(ReferenceHex(c)).value)
    ensures ValidMatcher(nearest) ==> o.engName in NameToHex() && o.chineseName != UnknownChinese
    ensures ValidMatcher(nearest) ==>
              forall i :: 0 <= i < 10 && CustomColorMap[i].name == o.engName ==> o.chineseName == CustomColorMap[i].chinese
    ensures ValidMatcher(nearest) ==> o.engStanderName == Lookup(standard, NameToHex()[o.engName])
  {
    var hex := RgbToHex(c);
    ParseOfRgbToHex(c);
    var m := nearest(hex);
    MatchedLabelKnown(nearest, hex);
    ColorObject(c, hex, m.name, ChineseLabel(m.name), Lookup(standard, m.value))
  }

  /** A pixel whose hex equals a reference entry's hex is described by that entry. */
  lemma ReferencePixel(nearest: string -> Match, standard: seq<Entry>, i: nat)
    requires ValidMatcher(nearest)
    requires i < 10
    ensures FormatColorObject(nearest, standard, ReferenceRgb[i]).engName == CustomColorMap[i].name
    ensures FormatColorObject(nearest, standard, ReferenceRgb[i]).chineseName == CustomColorMap[i].chinese
    ensures FormatColorObject(nearest, standard, ReferenceRgb[i]).engStanderName
            == Lookup(standard, CustomColorMap[i].hex)
  {
    TableHexIsEncoding();
    NameToHexContents();
    var name := CustomColorMap[i].name;
    assert nearest(NameToHex()[name]) == Match(name, NameToHex()[name]);
  }

  /** Pure red is described as `Red` / `純紅` by every matcher meeting the contract. */
  lemma PureRed(nearest: string -> Match, standard: seq<Entry>)
    requires ValidMatcher(nearest)
    ensures FormatColorObject(nearest, standard, Rgb(255, 0, 0)).engName == "Red"
    ensures FormatColorObject(nearest, standard, Rgb(255, 0, 0)).chineseName == "純紅"
  {
    ReferencePixel(nearest, standard, 7);
  }

  /**
   * The standard name depends only on the matched reference colour: two
   * pixels with the same English name get the same standard name.
   */
  lemma StandardNameFollowsReference(nearest: string -> Match, standard: seq<Entry>, a: Rgb, b: Rgb)
    ensures ValidMatcher(nearest)
            && FormatColorObject(nearest, standard, a).engName == FormatColorObject(nearest, standard, b).engName
            ==> FormatColorObject(nearest, standard, a).engStanderName
                == FormatColorObject(nearest, standard, b).engStanderName
  {
  }

  /** With an array-valued standard table every description's standard name is `Unknown`. */
  lemma ArrayTableGivesUnknown(nearest: string -> Match, standard: seq<Entry>, c: Rgb)
    requires forall j :: 0 <= j < |standard| ==> standard[j].value.Arr?
    ensures FormatColorObject(nearest, standard, c).engStanderName == UnknownName
  {
    ArrayValuedTableIsUnknown(standard, nearest(RgbToHex(c)).value);
  }
}

=== FILE: hex.dfy ===
/**
 * The RGB -> `#RRGGBB` serialiser of `formatColorObject` (index.js line 52).
 *
 * The source computes `(1 << 24) + (r << 16) + (g << 8) + b`, renders the
 * number with `toString(16)` (lower-case base 16, no padding), drops the
 * leading `1` with `slice(1)` and upper-cases the rest.  Each step is modelled
 * with its JavaScript meaning, and the result is proved equal to an
 * independent reference encoding (two upper-case digits per channel), which a
 * decoder inverts.
 */
module Hex {
  import opened Wrappers

  /** One 8-bit colour channel, as produced by the colour-extraction library. */
  type Channel = x: int | 0 <= x < 256

  /** An RGB triple; the `rgb` field of a colour description. */
  datatype Rgb = Rgb(r: Channel, g: Channel, b: Channel)

  /** Digit `d` as emitted by `Number.prototype.toString(16)`: `0-9`, then `a-f`. */
  function LowerDigit(d: nat): char
    requires d < 16
  {
    if d < 10 then ('0' as int + d) as char else ('a' as int + d - 10) as char
  }

  /** Digit `d` of the hex field after `toUpperCase`: `0-9`, then `A-F`. */
  function UpperDigit(d: nat): char
    requires d < 16
  {
    if d < 10 then ('0' as int + d) as char else ('A' as int + d - 10) as char
  }

  predicate IsLowerHexDigit(c: char)
  {
    '0' <= c <= '9' || 'a' <= c <= 'f'
  }

  /** The alphabet `0-9A-F` of the hex field. */
  predicate IsUpperHexDigit(c: char)
  {
    '0' <= c <= '9' || 'A' <= c <= 'F'
  }

  // ---------------------------------------------------------------------
  // JavaScript primitives used by the encoder
  // ---------------------------------------------------------------------

  function Pow2(k: nat): (p: nat)
    ensures p >= 1
  {
    if k == 0 then 1 else 2 * Pow2(k - 1)
  }

  function Pow16(k: nat): (p: nat)
    ensures p >= 1
  {
    if k == 0 then 1 else 16 * Pow16(k - 1)
  }

  /** ECMAScript ToInt32: reduce modulo 2^32 into the signed 32-bit range. */
  function ToInt32(x: int): (y: int)
    ensures -0x8000_0000 <= y < 0x8000_0000
    ensures -0x8000_0000 <= x < 0x8000_0000 ==> y == x
  {
    var m := x % 0x1_0000_0000;
    if m >= 0x8000_0000 then m - 0x1_0000_0000 else m
  }

  /** The JavaScript `x << s` operator on integral numbers. */
  function ShiftLeft(x: int, s: nat): int
  {
    ToInt32(ToInt32(x) * Pow2(s % 32))
  }

  /** A shift that stays inside the signed 32-bit range is a multiplication. */
  lemma ShiftLeftNoWrap(x: int, s: nat)
    requires s < 32
    requires 0 <= x < 0x8000_0000 && x * Pow2(s) < 0x8000_0000
    ensures ShiftLeft(x, s) == x * Pow2(s)
  {
    var p := Pow2(s);
    assert s % 32 == s;
    assert ToInt32(x) == x;
    MulNonneg(x, p);
    assert ShiftLeft(x, s) == ToInt32(x * p);
  }

  lemma MulNonneg(x: int, y: int)
    requires 0 <= x && 0 <= y
    ensures 0 <= x * y
  {
  }

  /** The powers the encoder uses. */
  lemma PowValues()
    ensures Pow2(8) == 0x100 && Pow2(16) == 0x1_0000 && Pow2(24) == 0x100_0000
    ensures Pow16(2) == 0x100 && Pow16(4) == 0x1_0000 && Pow16(6) == 0x100_0000
  {
    assert Pow2(4) == 16;
    assert Pow2(8) == 0x100;
    assert Pow2(12) == 0x1000;
    assert Pow2(16) == 0x1_0000;
    assert Pow2(20) == 0x10_0000;
    assert Pow16(2) == 0x100;
    assert Pow16(4) == 0x1_0000;
  }

  /** `n.toString(16)` for a non-negative integer: lower-case digits, most significant first. */
  function ToBase16(n: nat): (s: string)
    ensures |s| >= 1
    ensures forall i :: 0 <= i < |s| ==> IsLowerHexDigit(s[i])
    ensures n >= 16 ==> |s| >= 2
  {
    if n < 16 then [LowerDigit(n)] else ToBase16(n / 16) + [LowerDigit(n % 16)]
  }

  /** `String.prototype.slice(1)`. */
  function SliceFrom1(s: string): (t: string)
    ensures |t| == if |s| == 0 then 0 else |s| - 1
  {
    if |s| == 0 then [] else s[1..]
  }

  /** Upper-casing of one character; only ASCII letters change. */
  function UpperChar(c: char): char
  {
    if 'a' <= c <= 'z' then (c as int - 32) as char else c
  }

  /** `String.prototype.toUpperCase` restricted to ASCII letters. */
  function ToUpper(s: string): (t: string)
    ensures |t| == |s|
    ensures forall i :: 0 <= i < |s| ==> t[i] == UpperChar(s[i])
  {
    if |s| == 0 then [] else [UpperChar(s[0])] + ToUpper(s[1..])
  }

  // ---------------------------------------------------------------------
  // The encoder as written, and its reference encoding
  // ---------------------------------------------------------------------

  /** The integer `(1 << 24) + (r << 16) + (g << 8) + b`. */
  function Packed(c: Rgb): int
  {
    ShiftLeft(1, 24) + ShiftLeft(c.r, 16) + ShiftLeft(c.g, 8) + c.b
  }

  /** Two upper-case digits, zero-left-padded: the reference encoding of one channel. */
  function Hex2(v: Channel): (s: string)
    ensures |s| == 2 && IsUpperHexDigit(s[0]) && IsUpperHexDigit(s[1])
    ensures DigitValue(s[0]) == Some(v / 16) && DigitValue(s[1]) == Some(v % 16)
  {
    [UpperDigit(v / 16), UpperDigit(v % 16)]
  }

  /** Canonical form of the hex field: `#` followed by six upper-case hex digits. */
  predicate IsCanonical(s: string)
  {
    |s| == 7 && s[0] == '#' && forall i :: 1 <= i < 7 ==> IsUpperHexDigit(s[i])
  }

  /** Reference encoding of a triple: `#` and two upper-case digits per channel. */
  function ReferenceHex(c: Rgb): (h: string)
    ensures IsCanonical(h)
    ensures h[1..3] == Hex2(c.r) && h[3..5] == Hex2(c.g) && h[5..7] == Hex2(c.b)
  {
    "#" + Hex2(c.r) + Hex2(c.g) + Hex2(c.b)
  }

  /** The hex field exactly as `formatColorObject` computes it. */
  function RgbToHex(c: Rgb): (h: string)
    ensures h == ReferenceHex(c)
    ensures IsCanonical(h)
  {
    var n := Packed(c);
    PackedIsSum(c);
    PowValues();
    EncodeSum(n, c);
    "#" + ToUpper(SliceFrom1(ToBase16(n)))
  }

  // ---------------------------------------------------------------------
  // The decoder (partner of the encoder)
  // ---------------------------------------------------------------------

  /** Value of one hex digit of either case, None for any other character. */
  function DigitValue(c: char): (v: Option<nat>)
    ensures v.Some? <==> IsUpperHexDigit(c) || IsLowerHexDigit(c)
    ensures v.Some? ==> v.value < 16
    ensures IsUpperHexDigit(c) ==> UpperDigit(v.value) == c
    ensures IsLowerHexDigit(c) ==> LowerDigit(v.value) == c
  {
    if '0' <= c <= '9' then Some(c as int - '0' as int)
    else if 'A' <= c <= 'F' then Some(c as int - 'A' as int + 10)
    else if 'a' <= c <= 'f' then Some(c as int - 'a' as int + 10)
    else None
  }

  /** Reads a two-digit channel. */
  function ParseChannel(hi: char, lo: char): (v: Option<Channel>)
    ensures v.Some? <==> DigitValue(hi).Some? && DigitValue(lo).Some?
    ensures v.Some? ==> v.value == DigitValue(hi).value * 16 + DigitValue(lo).value
  {
    match (DigitValue(hi), DigitValue(lo))
    case (Some(h), Some(l)) => Some(h * 16 + l)
    case _ => None
  }

  /** Decodes `#RRGGBB` (digits of either case); None for anything else. */
  function ParseHex(s: string): (c: Option<Rgb>)
    ensures c.Some? ==> |s| == 7 && s[0] == '#'
    ensures c.Some? ==> forall i :: 1 <= i < 7 ==> DigitValue(s[i]).Some?
    ensures IsCanonical(s) ==> c.Some?
  {
    if |s| != 7 || s[0] != '#' then None
    else
      match (ParseChannel(s[1], s[2]), ParseChannel(s[3], s[4]), ParseChannel(s[5], s[6]))
      case (Some(r), Some(g), Some(b)) => Some(Rgb(r, g, b))
      case _ => None
  }

  // ---------------------------------------------------------------------
  // Proofs
  // ---------------------------------------------------------------------

  /** The k lowest base-16 digits of v, lower case, zero-left-padded. */
  function LowerFixed(v: nat, k: nat): (s: string)
    ensures |s| == k
  {
    if k == 0 then [] else LowerFixed(v / 16, k - 1) + [LowerDigit(v % 16)]
  }

  lemma DivMod16(n: int, q: int, r: int)
    requires n == 16 * q + r && 0 <= r < 16
    ensures n / 16 == q && n % 16 == r
  {
  }

  /** Rendering 16^k + v, v < 16^k, gives `1` followed by v padded to k digits. */
  lemma {:induction false} ToBase16Leading1(v: nat, k: nat)
    requires v < Pow16(k)
    ensures ToBase16(Pow16(k) + v) == ['1'] + LowerFixed(v, k)
  {
    if k == 0 {
      assert v == 0;
    } else {
      var p := Pow16(k - 1);
      var n := Pow16(k) + v;
      assert n == 16 * (p + v / 16) + v % 16;
      DivMod16(n, p + v / 16, v % 16);
      assert v / 16 < p;
      ToBase16Leading1(v / 16, k - 1);
      assert ToBase16(n) == ToBase16(p + v / 16) + [LowerDigit(v % 16)];
      assert LowerFixed(v, k) == LowerFixed(v / 16, k - 1) + [LowerDigit(v % 16)];
    }
  }

  /** Fixed-width digits of a * 16^m + c split into those of a and those of c. */
  lemma {:induction false} LowerFixedSplit(a: nat, c: nat, k: nat, m: nat)
    requires c < Pow16(m)
    ensures LowerFixed(a * Pow16(m) + c, k + m) == LowerFixed(a, k) + LowerFixed(c, m)
  {
    if m == 0 {
      assert c == 0;
    } else {
      var x := a * Pow16(m) + c;
      assert a * Pow16(m) == 16 * (a * Pow16(m - 1));
      DivMod16(x, a * Pow16(m - 1) + c / 16, c % 16);
      LowerFixedSplit(a, c / 16, k, m - 1);
    }
  }

  lemma UpperOfLowerDigit(d: nat)
    requires d < 16
    ensures UpperChar(LowerDigit(d)) == UpperDigit(d)
  {
  }

  /** Upper-casing two padded lower-case digits yields the reference `Hex2`. */
  lemma UpperFixed2(v: Channel)
    ensures ToUpper(LowerFixed(v, 2)) == Hex2(v)
  {
    assert LowerFixed(v, 2) == [LowerDigit(v / 16), LowerDigit(v % 16)];
    UpperOfLowerDigit(v / 16);
    UpperOfLowerDigit(v % 16);
  }

  lemma ToUpperAppend(s: string, t: string)
    ensures ToUpper(s + t) == ToUpper(s) + ToUpper(t)
  {
  }

  /** None of the three shifts wraps around, so the packed value is a plain sum. */
  lemma PackedIsSum(c: Rgb)
    ensures Packed(c) == Pow16(6) + c.r * Pow16(4) + c.g * Pow16(2) + c.b
  {
    PowValues();
    ShiftLeftNoWrap(1, 24);
    ShiftLeftNoWrap(c.r, 16);
    ShiftLeftNoWrap(c.g, 8);
  }

  /** Dropping the leading `1` from the rendering of 16^6 + v leaves v's six padded digits. */
  lemma SliceLeading1(v: nat)
    requires v < Pow16(6)
    ensures SliceFrom1(ToBase16(Pow16(6) + v)) == LowerFixed(v, 6)
  {
    ToBase16Leading1(v, 6);
    assert (['1'] + LowerFixed(v, 6))[1..] == LowerFixed(v, 6);
  }

  /** Six padded digits of a packed triple are the three channels' digit pairs. */
  lemma ChannelDigits(r: Channel, g: Channel, b: Channel)
    ensures LowerFixed(r * 0x1_0000 + g * 0x100 + b, 6)
         == LowerFixed(r, 2) + LowerFixed(g, 2) + LowerFixed(b, 2)
  {
    PowValues();
    var gb := g * 0x100 + b;
    LowerFixedSplit(r, gb, 2, 4);
    LowerFixedSplit(g, b, 2, 2);
  }

  /** Upper-casing the three lower-case digit pairs gives the reference encoding. */
  lemma UpperChannels(c: Rgb)
    ensures "#" + ToUpper(LowerFixed(c.r, 2) + LowerFixed(c.g, 2) + LowerFixed(c.b, 2)) == ReferenceHex(c)
  {
    var lr, lg, lb := LowerFixed(c.r, 2), LowerFixed(c.g, 2), LowerFixed(c.b, 2);
    ToUpperAppend(lr + lg, lb);
    ToUpperAppend(lr, lg);
    UpperFixed2(c.r);
    UpperFixed2(c.g);
    UpperFixed2(c.b);
  }

  /** The digits after the leading `1` of an already-summed packed value. */
  lemma SumDigits(n: int, c: Rgb)
    requires n == Pow16(6) + c.r * 0x1_0000 + c.g * 0x100 + c.b
    ensures n >= 0
    ensures SliceFrom1(ToBase16(n)) == LowerFixed(c.r, 2) + LowerFixed(c.g, 2) + LowerFixed(c.b, 2)
  {
    PowValues();
    var v := c.r * 0x1_0000 + c.g * 0x100 + c.b;
    SliceLeading1(v);
    ChannelDigits(c.r, c.g, c.b);
  }

  /** The JavaScript pipeline applied to an already-summed packed value. */
  lemma EncodeSum(n: int, c: Rgb)
    requires n == Pow16(6) + c.r * 0x1_0000 + c.g * 0x100 + c.b
    ensures n >= 0
    ensures "#" + ToUpper(SliceFrom1(ToBase16(n))) == ReferenceHex(c)
  {
    SumDigits(n, c);
    UpperChannels(c);
  }

  // ---------------------------------------------------------------------
  // Round trips
  // ---------------------------------------------------------------------

  /** Decoding the hex field returns the triple it was computed from. */
  lemma ParseOfRgbToHex(c: Rgb)
    ensures ParseHex(RgbToHex(c)) == Some(c)
  {
    var h := RgbToHex(c);
    assert h[1] == Hex2(c.r)[0] && h[2] == Hex2(c.r)[1];
    assert h[3] == Hex2(c.g)[0] && h[4] == Hex2(c.g)[1];
    assert h[5] == Hex2(c.b)[0] && h[6] == Hex2(c.b)[1];
  }

  /** A two-digit upper-case pair decodes to the channel whose `Hex2` it is. */
  lemma Hex2OfParsedPair(hi: char, lo: char)
    requires IsUpperHexDigit(hi) && IsUpperHexDigit(lo)
    ensures ParseChannel(hi, lo).Some?
    ensures Hex2(ParseChannel(hi, lo).value) == [hi, lo]
  {
    var h, l := DigitValue(hi).value, DigitValue(lo).value;
    var v := h * 16 + l;
    DivMod16(v, h, l);
  }

  /** Two `#RRGGBB` strings agreeing on each channel's digit pair are equal. */
  lemma SameChannelPairs(h: string, s: string)
    requires |h| == 7 && |s| == 7 && h[0] == s[0]
    requires h[1..3] == [s[1], s[2]] && h[3..5] == [s[3], s[4]] && h[5..7] == [s[5], s[6]]
    ensures h == s
  {
    assert h[1] == h[1..3][0] && h[2] == h[1..3][1];
    assert h[3] == h[3..5][0] && h[4] == h[3..5][1];
    assert h[5] == h[5..7][0] && h[6] == h[5..7][1];
  }

  /** Every canonical hex string is the encoding of the triple it decodes to. */
  lemma RgbToHexOfParse(s: string)
    requires IsCanonical(s)
    ensures ParseHex(s).Some? && RgbToHex(ParseHex(s).value) == s
  {
    assert IsUpperHexDigit(s[1]) && IsUpperHexDigit(s[2]);
    assert IsUpperHexDigit(s[3]) && IsUpperHexDigit(s[4]);
    assert IsUpperHexDigit(s[5]) && IsUpperHexDigit(s[6]);
    Hex2OfParsedPair(s[1], s[2]);
    Hex2OfParsedPair(s[3], s[4]);
    Hex2OfParsedPair(s[5], s[6]);
    var c := Rgb(ParseChannel(s[1], s[2]).value, ParseChannel(s[3], s[4]).value, ParseChannel(s[5], s[6]).value);
    assert ParseHex(s) == Some(c);
    SameChannelPairs(RgbToHex(c), s);
  }

  /** Distinct triples have distinct hex fields. */
  lemma RgbToHexInjective(a: Rgb, b: Rgb)
    ensures RgbToHex(a) == RgbToHex(b) <==> a == b
  {
    if RgbToHex(a) == RgbToHex(b) {
      ParseOfRgbToHex(a);
      ParseOfRgbToHex(b);
    }
  }
}

=== FILE: reference.dfy ===
/**
 * The fixed ten-entry reference palette (`customColorMap`, index.js lines
 * 15-26), the name -> hex object derived from it for the nearest-colour
 * matcher (lines 29-34), the Chinese-label lookup of `formatColorObject`
 * (line 65), and the contract assumed of the external nearest-colour matcher.
 */
module Reference {
  import opened Wrappers
  import opened Hex

  /** One reference colour: its English name, `#RRGGBB` value and Chinese label. */
  datatype RefColor = RefColor(name: string, hex: string, chinese: string)

  /** The reference palette in its declaration order (which is also `Object.entries` order). */
  const CustomColorMap: seq<RefColor> := [
    RefColor("Blue", "#0000FF", "標準純藍"),
    RefColor("Gray", "#808080", "中性灰"),
    RefColor("White", "#FFFFFF", "白色"),
    RefColor("Brown", "#8B4513", "棕色"),
    RefColor("Yellow", "#FFFF00", "純黃色"),
    RefColor("Orange", "#FFA500", "標準橙色"),
    RefColor("Black", "#000000", "黑色"),
    RefColor("Red", "#FF0000", "純紅"),
    RefColor("Purple", "#800080", "標準紫色"),
    RefColor("Green", "#008000", "標準綠色")
  ]

  /** The triples the ten reference hex strings denote, in table order. */
  const ReferenceRgb: seq<Rgb> := [
    Rgb(0, 0, 255), Rgb(128, 128, 128), Rgb(255, 255, 255), Rgb(139, 69, 19), Rgb(255, 255, 0),
    Rgb(255, 165, 0), Rgb(0, 0, 0), Rgb(255, 0, 0), Rgb(128, 0, 128), Rgb(0, 128, 0)
  ]

  /** Label used when a name has no reference entry (or an empty label). */
  const UnknownChinese: string := "未知"

  // ---------------------------------------------------------------------
  // The derived name -> hex object
  // ---------------------------------------------------------------------

  /** Index of the last entry named `name` at or after position `i`; for "later keys win". */
  ghost predicate LastWithName(entries: seq<RefColor>, i: int)
  {
    0 <= i < |entries| && forall j :: i < j < |entries| ==> entries[j].name != entries[i].name
  }

  /**
   * The `reduce` that builds `{ name: hex }` from the table's entries: each
   * entry assigns `acc[name] = hex`, so a later entry with the same name
   * overwrites an earlier one.
   */
  function HexByName(entries: seq<RefColor>): (m: map<string, string>)
    ensures m.Keys == set e | e in entries :: e.name
    ensures forall i :: LastWithName(entries, i) ==> m[entries[i].name] == entries[i].hex
  {
    if |entries| == 0 then map[]
    else
      var init := entries[..|entries| - 1];
      var last := entries[|entries| - 1];
      assert entries == init + [last];
      var m := HexByName(init);
      var m' := m[last.name := last.hex];
      assert forall i :: LastWithName(entries, i) ==> m'[entries[i].name] == entries[i].hex by {
        forall i | LastWithName(entries, i)
          ensures m'[entries[i].name] == entries[i].hex
        {
          if i < |entries| - 1 {
            assert LastWithName(init, i);
          }
        }
      }
      m'
  }

  /** The object handed to `nearestColor.from`. */
  function NameToHex(): map<string, string>
  {
    HexByName(CustomColorMap)
  }

  /** The ten names are pairwise distinct, and so are the ten hex strings. */
  lemma TableDistinct()
    ensures |CustomColorMap| == 10 && |ReferenceRgb| == 10
    ensures forall i, j :: 0 <= i < j < 10 ==> CustomColorMap[i].name != CustomColorMap[j].name
    ensures forall i, j :: 0 <= i < j < 10 ==> CustomColorMap[i].hex != CustomColorMap[j].hex
    ensures forall i, j :: 0 <= i < j < 10 ==> ReferenceRgb[i] != ReferenceRgb[j]
    ensures forall i :: 0 <= i < 10 ==> CustomColorMap[i].chinese != "" && CustomColorMap[i].chinese != UnknownChinese
  {
  }

  /** One reference entry's hex string decodes to its triple. */
  lemma EntryDecodes(i: nat)
    requires i < 10
    ensures IsCanonical(CustomColorMap[i].hex)
    ensures ParseHex(CustomColorMap[i].hex) == Some(ReferenceRgb[i])
  {
    // Empty branches: the split lets the solver evaluate each literal entry on its own.
    if i == 0 {
    } else if i == 1 {
    } else if i == 2 {
    } else if i == 3 {
    } else if i == 4 {
    } else if i == 5 {
    } else if i == 6 {
    } else if i == 7 {
    } else if i == 8 {
    } else {
    }
  }

  /** Every reference hex string is canonical and is the encoding of its triple. */
  lemma TableHexIsEncoding()
    ensures forall i :: 0 <= i < 10 ==> IsCanonical(CustomColorMap[i].hex)
    ensures forall i :: 0 <= i < 10 ==> ParseHex(CustomColorMap[i].hex) == Some(ReferenceRgb[i])
    ensures forall i :: 0 <= i < 10 ==> RgbToHex(ReferenceRgb[i]) == CustomColorMap[i].hex
  {
    forall i | 0 <= i < 10
      ensures IsCanonical(CustomColorMap[i].hex)
      ensures ParseHex(CustomColorMap[i].hex) == Some(ReferenceRgb[i])
      ensures RgbToHex(ReferenceRgb[i]) == CustomColorMap[i].hex
    {
      EntryDecodes(i);
      RgbToHexOfParse(CustomColorMap[i].hex);
    }
  }

  /** The derived object has exactly the ten names, each mapped to its own hex string. */
  lemma NameToHexContents()
    ensures forall name :: name in NameToHex() ==> exists i :: 0 <= i < 10 && CustomColorMap[i].name == name
    ensures forall i :: 0 <= i < 10 ==> CustomColorMap[i].name in NameToHex()
    ensures forall i :: 0 <= i < 10 ==> NameToHex()[CustomColorMap[i].name] == CustomColorMap[i].hex
  {
    TableDistinct();
    var t := CustomColorMap;
    assert forall i :: 0 <= i < 10 ==> LastWithName(t, i);
    forall i | 0 <= i < 10
      ensures t[i].name in NameToHex()
    {
      assert t[i] in t;
    }
    forall name | name in NameToHex()
      ensures exists i :: 0 <= i < 10 && t[i].name == name
    {
      var e :| e in t && e.name == name;
      var i :| 0 <= i < |t| && t[i] == e;
    }
  }

  /** A name of the derived object is the name of a table position, which carries its hex. */
  lemma NameToHexIndex(name: string) returns (i: nat)
    ensures name in NameToHex() ==> i < 10 && CustomColorMap[i].name == name
    ensures name in NameToHex() ==> NameToHex()[name] == CustomColorMap[i].hex
  {
    NameToHexContents();
    if name in NameToHex() {
      i :| 0 <= i < 10 && CustomColorMap[i].name == name;
    } else {
      i := 0;
    }
  }

  // ---------------------------------------------------------------------
  // The Chinese label lookup
  // ---------------------------------------------------------------------

  /**
   * Looks an entry up by name, as `customColorMap[name]` does.  It returns the
   * first entry with that name, whereas an object literal keeps the last value
   * of a repeated key; the two agree here because `TableDistinct` proves the
   * ten names distinct.
   */
  function FindByName(entries: seq<RefColor>, name: string): (r: Option<RefColor>)
    ensures r.Some? ==> r.value in entries && r.value.name == name
    ensures r.None? ==> forall i :: 0 <= i < |entries| ==> entries[i].name != name
  {
    if |entries| == 0 then None
    else if entries[0].name == name then Some(entries[0])
    else FindByName(entries[1..], name)
  }

  /** `customColorMap[name]?.chinese || '未知'`: an absent entry or an empty label falls back. */
  function ChineseLabel(name: string): (zh: string)
    ensures forall i :: 0 <= i < 10 && CustomColorMap[i].name == name ==> zh == CustomColorMap[i].chinese
    ensures (forall i :: 0 <= i < 10 ==> CustomColorMap[i].name != name) ==> zh == UnknownChinese
  {
    TableDistinct();
    match FindByName(CustomColorMap, name)
    case Some(e) => if e.chinese == "" then UnknownChinese else e.chinese
    case None => UnknownChinese
  }

  /** Every reference name has a real label, so the fallback is never produced for one. */
  lemma ChineseLabelKnown(name: string)
    ensures name in NameToHex() ==> ChineseLabel(name) != UnknownChinese
  {
    var i := NameToHexIndex(name);
    if name in NameToHex() {
      TableDistinct();
      assert ChineseLabel(name) == CustomColorMap[i].chinese;
    }
  }

  // ---------------------------------------------------------------------
  // The nearest-colour matcher
  // ---------------------------------------------------------------------

  /** The part of a `nearest-color` result that the service reads: `name` and `value`. */
  datatype Match = Match(name: string, value: string)

  /**
   * What the model assumes of the external matcher built over `NameToHex()`:
   * for every well-formed query it answers with one of the object's entries,
   * and a query equal to an entry's own hex string answers with that entry.
   */
  ghost predicate ValidMatcher(nearest: string -> Match)
  {
    && (forall q :: IsCanonical(q) ==>
          nearest(q).name in NameToHex() && nearest(q).value == NameToHex()[nearest(q).name])
    && (forall name :: name in NameToHex() ==>
          nearest(NameToHex()[name]) == Match(name, NameToHex()[name]))
  }

  /** Under the matcher contract, a well-formed query's match has a real Chinese label. */
  lemma MatchedLabelKnown(nearest: string -> Match, q: string)
    ensures ValidMatcher(nearest) && IsCanonical(q) ==>
              nearest(q).name in NameToHex() && ChineseLabel(nearest(q).name) != UnknownChinese
  {
    if ValidMatcher(nearest) && IsCanonical(q) {
      ChineseLabelKnown(nearest(q).name);
    }
  }

  lemma SquareFacts(x: int)
    ensures x * x >= 0
    ensures x * x == 0 <==> x == 0
  {
  }

  /** Squared Euclidean distance in RGB space. */
  function SqDist(a: Rgb, b: Rgb): (d: nat)
    ensures d == 0 <==> a == b
  {
    SquareFacts(a.r - b.r);
    SquareFacts(a.g - b.g);
    SquareFacts(a.b - b.b);
    (a.r - b.r) * (a.r - b.r) + (a.g - b.g) * (a.g - b.g) + (a.b - b.b) * (a.b - b.b)
  }

  /** Index of the nearest of the first k reference triples to c; the earliest wins ties. */
  function NearestIndex(c: Rgb, k: nat): (i: nat)
    requires 1 <= k <= 10
    ensures i < k
    ensures forall j :: 0 <= j < k ==> SqDist(c, ReferenceRgb[i]) <= SqDist(c, ReferenceRgb[j])
    ensures forall j :: 0 <= j < i ==> SqDist(c, ReferenceRgb[j]) > SqDist(c, ReferenceRgb[i])
  {
    if k == 1 then 0
    else
      var p := NearestIndex(c, k - 1);
      if SqDist(c, ReferenceRgb[k - 1]) < SqDist(c, ReferenceRgb[p]) then k - 1 else p
  }

  /**
   * One matcher meeting `ValidMatcher`: minimal squared RGB distance, the
   * earliest entry winning ties.  A query that is not a hex colour cannot
   * arise (every query is produced by `RgbToHex`) and is answered with the
   * first entry.
   */
  function EuclidMatcher(q: string): Match
  {
    match ParseHex(q)
    case None => Match(CustomColorMap[0].name, CustomColorMap[0].hex)
    case Some(c) =>
      var i := NearestIndex(c, 10);
      Match(CustomColorMap[i].name, CustomColorMap[i].hex)
  }

  /** A well-formed query is answered with an entry of the derived object. */
  lemma EuclidAnswersEntry(q: string)
    requires IsCanonical(q)
    ensures EuclidMatcher(q).name in NameToHex()
    ensures EuclidMatcher(q).value == NameToHex()[EuclidMatcher(q).name]
  {
    NameToHexContents();
  }

  /** A query equal to an entry's hex string is answered with that entry. */
  lemma EuclidExactEntry(name: string)
    ensures name in NameToHex() ==> EuclidMatcher(NameToHex()[name]) == Match(name, NameToHex()[name])
  {
    if name !in NameToHex() {
      return;
    }
    var i := NameToHexIndex(name);
    TableDistinct();
    EntryDecodes(i);
    var c := ReferenceRgb[i];
    var k := NearestIndex(c, 10);
    assert SqDist(c, ReferenceRgb[k]) <= SqDist(c, ReferenceRgb[i]);
    assert ReferenceRgb[k] == c;
    assert k == i;
  }

  /** The distance-minimising matcher satisfies the assumed matcher contract. */
  lemma EuclidMatcherIsValid()
    ensures ValidMatcher(EuclidMatcher)
  {
    forall q | IsCanonical(q)
      ensures EuclidMatcher(q).name in NameToHex()
      ensures EuclidMatcher(q).value == NameToHex()[EuclidMatcher(q).name]
    {
      EuclidAnswersEntry(q);
    }
    forall name | name in NameToHex()
      ensures EuclidMatcher(NameToHex()[name]) == Match(name, NameToHex()[name])
    {
      EuclidExactEntry(name);
    }
  }
}

=== FILE: standard_name.dfy ===
/**
 * The standard-name lookup of `formatColorObject` (index.js line 59):
 * `Object.keys(colorNameList).find(name => colorNameList[name] === query) || 'Unknown'`.
 *
 * The `color-name` table belongs to an external package and is a parameter
 * here: an ordered list of (key, value) pairs in `Object.keys` order.  Its
 * values are JavaScript values, compared with `===` against the query string.
 */
module StandardName {

  /** A value stored in the standard table: a string, or an array of numbers. */
  datatype JsValue = Str(text: string) | Arr(items: seq<int>)

  /** One `(key, value)` entry of the standard table. */
  datatype Entry = Entry(key: string, value: JsValue)

  /** Result when no key qualifies. */
  const UnknownName: string := "Unknown"

  /**
   * `value === query` for a string query: a string is strictly equal only to a
   * string with the same characters, and an array object is never strictly
   * equal to a string.
   */
  predicate StrictEqualsString(value: JsValue, query: string)
  {
    value.Str? && value.text == query
  }

  /** Index of the first entry whose value is strictly equal to `query`, if any. */
  function FindIndex(table: seq<Entry>, query: string): (r: int)
    ensures -1 <= r < |table|
    ensures r >= 0 ==> StrictEqualsString(table[r].value, query)
    ensures forall j :: 0 <= j < |table| && (r < 0 || j < r) ==> !StrictEqualsString(table[j].value, query)
  {
    if |table| == 0 then -1
    else if StrictEqualsString(table[0].value, query) then 0
    else
      var r := FindIndex(table[1..], query);
      if r < 0 then -1 else r + 1
  }

  /**
   * The first key whose value is strictly equal to `query`, or `Unknown` when
   * there is none; the `||` also turns an empty key into `Unknown`.
   */
  function Lookup(table: seq<Entry>, query: string): (name: string)
    ensures (forall j :: 0 <= j < |table| ==> !StrictEqualsString(table[j].value, query)) ==> name == UnknownName
    ensures forall i :: 0 <= i < |table| && StrictEqualsString(table[i].value, query)
                && (forall j :: 0 <= j < i ==> !StrictEqualsString(table[j].value, query))
                ==> name == (if table[i].key == "" then UnknownName else table[i].key)
    ensures name != ""
  {
    var i := FindIndex(table, query);
    if i < 0 || table[i].key == "" then UnknownName else table[i].key
  }

  /** A result other than `Unknown` is a key of the table whose value is the query. */
  lemma LookupIsKey(table: seq<Entry>, query: string)
    ensures Lookup(table, query) != UnknownName ==>
              exists i :: 0 <= i < |table| && table[i].key == Lookup(table, query)
                          && StrictEqualsString(table[i].value, query)
  {
    var i := FindIndex(table, query);
    if Lookup(table, query) != UnknownName {
      assert 0 <= i && table[i].key == Lookup(table, query);
    }
  }

  /** A table whose values are all arrays never yields a name: every lookup is `Unknown`. */
  lemma ArrayValuedTableIsUnknown(table: seq<Entry>, query: string)
    requires forall j :: 0 <= j < |table| ==> table[j].value.Arr?
    ensures Lookup(table, query) == UnknownName
  {
  }
}

=== FILE: wrappers.dfy ===
/** `Option`, used for JavaScript's `undefined` throughout the colour-analysis model. */
module Wrappers {

  /** A value that may be absent; JavaScript's `undefined` is None. */
  datatype Option<+T> = None | Some(value: T)
}
